=== FILE: README.md ===
# libdigidocpp: container rules and timestamp-signature validation, in Dafny

This project models two pieces of libdigidocpp, a library for signed
document containers (ASiC archives holding data files and signatures).

- **The container abstraction** (`digidoc::Container`, `src/Container.cpp`):
  - The process-wide registry of container implementations. `createPtr` and `openPtr`
    probe the registry in registration order and fall back to ASiC-E.
  - `initialize` / `terminate`, and the application name and user agent they set.
  - `newSignatureId`, the smallest number `n` such that no signature has the id `"S<n>"`.
  - The documented rules that tie data files to signatures. No data file may be added or
    removed once the container is signed. A container without data files cannot be signed.
    Data file names are unique.
- **The timestamp signature** (`digidoc::SignatureTST`, `src/SignatureTST.cpp`):
  - A signature of an ASiC-S container that is a bare timestamp token.
  - Its accessors, which all read the token.
  - `dataToSign`.
  - `validate`. It collects the failures it detects as ordered causes of one "Timestamp validation."
    exception.

The model is functional. C++ exceptions become `Result` / `Outcome` values.
`digidoc::Exception` becomes a datatype with a message, a code and an ordered list of causes.
The global state of `Container.cpp` becomes an explicit `Library.State` value.

Collaborators the core calls but does not define are parameters. For the timestamp signature
they form the record `Timestamps.Collaborators`:
- digest computation (`DataFile::calcDigest`, `ASiC_S::fileDigest`);
- the token's cryptographic `verify`;
- `Digest::isWeakDigest`;
- `util::File::fromUriPath`;
- the process-wide warning filter `Exception::hasWarningIgnore`.

For the container they are the registered implementations' `createInternal` / `openInternal`,
ASiC-E's fallback, and a concrete format's signature parser.

Files:
- `types.dfy`: bytes, data files, exceptions, results.
- `signature_ids.dfy`: `"S%u"` formatting and the counting argument behind `newSignatureId`.
- `containers.dfy`: the container and its rules.
- `library.dfy`: process-wide state and format resolution.
- `timestamps.dfy`: the timestamp signature.

Notes on `validate` as written:
- In `validate`, a throw from `dataToSign()` or from the token's `verify` is the only cause.
  The weak-digest check and the reference checks sit in the same `try` block, so they do not
  run after such a throw.
- The first mismatching manifest reference throws. The surrounding `catch` turns that throw
  into one more cause. A weak-digest warning recorded earlier is kept, and later references
  are not checked.
- The reference loop takes the fast `calcDigest` path when the resolved URI equals the name of
  the container's *first* data file. It does not compare against the signature's own
  "current file".

## Model

| member | source | states |
|---|---|---|
| Containers.NewSignatureId | src/Container.cpp:323-329 | The result is fresh: no signature has id "S<result>". It is minimal: every smaller number's id is in use. It is at most the number of signatures, so the `unsigned int` counter cannot wrap for fewer than 2^32 signatures. |
| Containers.NewSignatureIdExample | src/Container.cpp:323-329 | With signatures S0 and S2, the only number meeting the fresh-and-minimal specification is 1. |
| SignatureIds.DecimalDistinct | src/Container.cpp:327 | `%u` formatting is injective: distinct numbers print as distinct digit strings, so each "S<n>" names one number. |
| SignatureIds.Pigeonhole | src/Container.cpp:326-328 | If S0 .. S(k-1) all occur in a list of ids, the list has at least k entries. This is why the unbounded id loop terminates. |
| Containers.AddDataFile | src/Container.cpp:217-226 | Adding a data file fails when the container has a signature, a file of that name exists, or the path is unreadable. On success the file is appended and nothing else changes. |
| Containers.AddDataFileStream | src/Container.cpp:242-261 | The base-class default of the stream overload always throws "Not implemented.". The raw-pointer overload forwards to whatever the concrete format supplies, and reaches this default only when there is no override. |
| Containers.RemoveDataFile | src/Container.cpp:388-397 | Removing a data file fails when the container is signed or the index is out of range. On success exactly that entry is removed, in order. |
| Containers.AddSignature | src/Container.cpp:263-281 | Adding a signature fails when there are no data files, and with the parser's error when parsing fails. On success the parsed signature is appended and the data files are unchanged. |
| Containers.RemoveSignature | src/Container.cpp:399-406 | Removing a signature fails when the index is out of range. On success exactly that entry is removed and the data files are unchanged. |
| Containers.AddThenRemoveDataFile | src/Container.cpp:217-226 | `removeDataFile` (Container.cpp:388-397) is the inverse of `addDataFile`: removing the data file just added restores the original container. |
| Containers.StepPreservesValid | src/Container.cpp:200-204 | Every successful operation keeps the invariant: signed implies data files exist, and file names are unique. |
| Containers.RunPreservesValid | src/Container.cpp:200-204 | Any sequence of operations keeps the same invariant. |
| Containers.SignedStepKeepsFiles | src/Container.cpp:200-204 | No successful operation on a signed container changes its data files. |
| Containers.SignedRunKeepsFiles | src/Container.cpp:200-204 | From a signed container, a run that removes no signature leaves the data files exactly as they were. |
| Library.AddContainerImplementation | src/Container.cpp:437-442 | Appends exactly one entry, the implementation, to both the create and open lists. Existing entries and names are unchanged, and the lists stay aligned. |
| Library.Initialize | src/Container.cpp:101-149 | Always sets the app name and user agent. On a crypto start-up failure it throws and registers nothing. Otherwise it registers PDF (when built in), SiVa and ASiC-S in that order, and throws exactly the certificate store's failure when no callback was given. With a callback it throws nothing. |
| Library.InitializeApp | src/Container.cpp:87-90 | The one-name overload sets both the app name and the user agent to `appInfo`, and otherwise behaves exactly as the two-name `initialize`: same registrations, same error. |
| Library.Terminate | src/Container.cpp:172-175 | Leaves both registries empty and clears the app name and user agent. |
| Library.ReplayKeepsAligned | src/Container.cpp:437-442 | Any sequence of registrations, initializations and terminations keeps the two lists equal-length and index-aligned. |
| Library.ReachableStatesAligned | src/Container.cpp:48-51 | Every state reachable from the library's initial state has aligned registries. |
| Library.TerminateThenInitialize | src/Container.cpp:129-133 | After `terminate`, a successful `initialize` leaves exactly the built-in implementations registered, in order. |
| Library.Resolve | src/Container.cpp:299-304 | The probe loop. When every probe declines, the fallback decides. Otherwise the first probe that returns a container, or throws, decides. |
| Library.ResolveStopsAtAnswer | src/Container.cpp:299-304 | Once a probe answers, later probes and the fallback are never consulted. |
| Library.CreatePtr | src/Container.cpp:297-305 | Returns the answer of the first registered `createInternal` that returns a container or throws. If all return null, returns `ASiC_E::createInternal(path)`. |
| Library.OpenPtr | src/Container.cpp:363-371 | The same first-answer rule over the open list, each probe given the callback. The fallback is `ASiC_E::openInternal(path)`. |
| Library.OpenPtrNoCallback | src/Container.cpp:351-354 | The one-argument `openPtr`: the same first-answer rule, with every probe given no callback. |
| Library.AppInfo | src/Container.cpp:65 | Reports the application name. It is "libdigidocpp" before `initialize`; `RegistrationKeepsNames` and `NamesReportLastInitialize` state what it reports afterwards. |
| Library.UserAgent | src/Container.cpp:70 | Reports the user agent, in the same way as `AppInfo`. |
| Library.RegistrationKeepsNames | src/Container.cpp:65-70 | Registering implementations never changes the app name or the user agent. |
| Library.NamesReportLastInitialize | src/Container.cpp:101-104 | After `initialize` and any registrations that follow it, `appInfo()` and `userAgent()` report the names that `initialize` was given, even when it threw. |
| Timestamps.FromBytes | src/SignatureTST.cpp:39-42 | Construction succeeds exactly when the token parses, and otherwise fails with the parser's exception. The signature then holds that token and the container's data files, with no covered file and no manifest. |
| Timestamps.FromManifest | src/SignatureTST.cpp:44-49 | As with `FromBytes`: it fails with the parser's exception, and otherwise keeps the token, the container's data files, the covered file name and the manifest. |
| Timestamps.Fresh | src/SignatureTST.cpp:51-58 | Construction succeeds exactly when the first data file's digest computes and the authority issues a token for it. Otherwise it fails with the exception of the step that threw. A fresh signature holds that token and the container's data files, covers the first data file, and has no manifest. |
| Timestamps.AccessorsDelegate | src/SignatureTST.cpp:62-96 | `claimedSigningTime` and `trustedSigningTime` are equal, both being the token's time. `id` is the token serial, `signatureMethod` the token's digest method, the certificate the token's, and `save` the token bytes. |
| Timestamps.SaveOpenRoundTrip | src/SignatureTST.cpp:165-168 | If token encoding round-trips, re-opening `save()` gives the same token: same id, method and imprint. |
| Timestamps.SetSignatureValue | src/SignatureTST.cpp:154-157 | Always fails with "Not implemented.". |
| Timestamps.Profile | src/SignatureTST.cpp:160-163 | Is the constant ASiC timestamp-token profile. |
| Timestamps.DataToSign | src/SignatureTST.cpp:142-147 | The digest, under the token's method, of the named file when there is one, else of the first data file. What this implies is stated by `DataToSignReadsOnlyFront` and `FreshDataToSign`. |
| Timestamps.MessageImprint | src/SignatureTST.cpp:149-152 | The token's message imprint. `SaveOpenRoundTrip` states that it survives `save()` and re-opening, and `FreshSignatureValidates` relates it to `dataToSign`. |
| Timestamps.DataToSignReadsOnlyFront | src/SignatureTST.cpp:142-147 | `dataToSign` reads no data file but the first, and none when a covered file is named. |
| Timestamps.FreshDataToSign | src/SignatureTST.cpp:142-147 | For a fresh signature, `dataToSign` is the digest of the first data file that the token was requested for. |
| Timestamps.CheckReference | src/SignatureTST.cpp:123-129 | One reference passes exactly when its computed digest equals its declared value. A digest failure is passed on. A mismatch becomes "Reference <uri> digest does not match". |
| Timestamps.CheckReferences | src/SignatureTST.cpp:118-131 | Nothing is thrown exactly when every reference matches. Otherwise the first non-matching reference, in document order, decides what is thrown. |
| Timestamps.CheckReferencesStopsAtFailure | src/SignatureTST.cpp:121-129 | References after a failing one never influence the outcome. |
| Timestamps.CheckReferencesSkipsMatching | src/SignatureTST.cpp:121-130 | A prefix of matching references is transparent: the outcome is that of what follows. |
| Timestamps.Validate | src/SignatureTST.cpp:98-140 | Without a token, throws with the single cause "Failed to parse timestamp token.". Otherwise returns normally exactly when no cause accumulated, and throws the top-level exception carrying all causes in order. |
| Timestamps.MissingTokenConsultsNothing | src/SignatureTST.cpp:100-106 | Without a token the result is the same whatever the collaborators do, and has exactly one cause. |
| Timestamps.ValidatePassesIffAllChecksPass | src/SignatureTST.cpp:98-140 | `validate` returns normally exactly when all of these hold: the token exists, `dataToSign` computes, the token verifies against it, no weak-digest warning is due, and every manifest reference matches. |
| Timestamps.DataToSignFailureIsOnlyCause | src/SignatureTST.cpp:107-136 | A throw from `dataToSign` is the only cause. |
| Timestamps.VerificationFailureIsOnlyCause | src/SignatureTST.cpp:107-136 | A verification failure is the only cause: no weak-digest or reference check follows it. |
| Timestamps.WeakWarningIff | src/SignatureTST.cpp:110-117 | A `ReferenceDigestWeak` cause is present exactly when verification succeeded, the warning is not filtered and the method is weak. It is then the first cause and alone makes `validate` throw. |
| Timestamps.FirstReferenceFailureIsLastCause | src/SignatureTST.cpp:110-136 | After a successful verification, the first failing reference adds one cause after the weak-digest warning. The warning is kept. |
| Timestamps.SingleMismatchNamesItsUri | src/SignatureTST.cpp:118-139 | With all digests computable and exactly one reference mismatching, `validate` throws and its last cause names that reference's file. |
| Timestamps.FreshSignatureValidates | src/SignatureTST.cpp:98-147 | A fresh signature whose token was issued honestly, verifies against its own imprint and has no weak-digest warning due passes `validate`. |

## Left out

- The libxml2 / xmlsec / OpenSSL start-up and shutdown calls in `initialize` and `terminate` are foreign calls. Start-up is the single parameter `cryptoInit`, which either succeeds or throws. It also stands for a throw from `Conf::init`, which comes after the names are set and before anything is registered, just like a start-up failure. Shutdown, the configuration's contents and temp-file deletion are not modelled.
- The certificate store loads on a detached background thread, which is concurrency. Only the synchronous case is modelled: with no callback, a load failure is thrown. With a callback, what the callback receives is not modelled.
- `version()` returns a build-time constant, so it is not modelled.
- The deprecated `Container::create` / `Container::open` only release ownership of what `createPtr` / `openPtr` return. The model has no ownership, so they are not modelled separately.
- The concrete formats (ASiC-E, ASiC-S, PDF, SiVa) are foreign code. Their `createInternal` / `openInternal` and the ASiC-E fallback are parameters. The `ContainerOpenCB` callback is passed to the open probes unchanged.
- `prepareSignature`, `sign` and `save` of `Container` are implemented by the concrete formats and are not modelled. `AddSig` (`addSignature`) is the only operation of `Containers.Step` that adds a signature, so the rule that only a container with data files can be signed is modelled on it alone.
- `dataFiles`, `signatures` and `mediaType` are the concrete formats' accessors; the model reads the fields of `Containers.Container` instead. The texts of the documented rules' errors are the concrete formats' and are not reproduced; the model's own wording stands in.
- Containers.AddDataFile: the documented failure conditions are taken as the only ones. A concrete format may refuse more, for example on a file name it does not accept, and that is not modelled. The contract also states only which inputs fail, not which error is reported when several rules are broken at once. That order is decided by each concrete format.
- Containers.RemoveDataFile: the documented failure conditions are taken as the only ones. Refusals specific to a concrete format are not modelled.
- Containers.AddSignature: the documented failure conditions and the parser's error are taken as the only ones. Refusals specific to a concrete format, such as a profile it does not accept, are not modelled.
- Containers.RemoveSignature: an index out of range is taken as the only failure. Refusals specific to a concrete format are not modelled.
- The concrete formats' overrides of the stream `addDataFile` are foreign code. Only the base-class default, which throws, is modelled as `Containers.AddDataFileStream`.
- The container sees a signature only through `id()`, so `Containers.Signature` carries only the id.
- Timestamp-token parsing, the token's `verify`, digest computation, `isWeakDigest`, `fromUriPath` and XML manifest traversal are collaborators. A manifest is a sequence of (uri, algorithm, digest value) references.
- Signing times are the token's time as a number. The `util::date::to_string` formatting is not modelled.
- `digidoc::Exception` is modelled without its source file and line, and with only the two codes the core distinguishes.
- ASiC_S.h, where `ASIC_TST_PROFILE` is defined, is not part of this model. `Timestamps.AsicTstProfile` carries the value libdigidocpp gives that constant, "TimeStampToken".
- Timestamps.Validate: requires `CanValidate`. The source reads the container's first data file via `front()`, and on an empty list that is undefined behaviour. `validate` reaches `front()` in two places: in `dataToSign()` when no covered file is named, and in the reference loop when a manifest is present and the token has verified. `CanValidate` excludes exactly the inputs that reach one of them with no data files. `Timestamps.DataToSign` (`CanDigest`) and `Timestamps.Fresh` carry the same requirement for their own `front()` call.
- `SignatureTST` keeps a pointer to its ASiC-S container and reads the container's data files when it runs. The model keeps a copy of the list taken when the signature is built. The copy stays accurate: a container that holds a signature cannot have its data files changed, which `Containers.SignedRunKeepsFiles` proves for every run that removes no signature.
- The `catch` in `validate` catches only `digidoc::Exception`. A collaborator that throws any other type makes the exception leave `validate` without becoming a cause. Collaborator failures in the model are always `Exception`, so that path is not modelled.
- Timestamps.Fresh: computes the fresh digest as `calcDigest` of the first data file under `defaultMethod`. The source default-constructs a `Digest` and feeds it the file through `DataFilePrivate::digest`. The model assumes the two give the same bytes under the default method, and `Timestamps.FreshDataToSign` and `Timestamps.FreshSignatureValidates` rest on that assumption.
- Timestamps.WeakWarningIff: assumes that no collaborator throws an exception that already carries the `ReferenceDigestWeak` code. That code is set only by `validate` itself.
- Calling `validate` twice gives equal results because the model is a pure function, so this needs no lemma.

=== FILE: containers.dfy ===
/**
 The container abstraction of `digidoc::Container`: its data files, its
 signatures (seen through the `Signature` interface, of which the container
 only needs `id()`), the documented rules that tie the two together, and
 `newSignatureId`, the smallest "S<n>" no signature uses yet.

 The concrete containers (ASiC-E, ASiC-S, PDF, SiVa) implement the documented
 mutation rules; they are modelled here from the documentation of the base
 class, with the signature parser of a concrete format as a parameter.
 */
module Containers {
  import opened Types
  import opened SignatureIds

  /** A signature as the container sees it: its identifier. */
  datatype Signature = Signature(id: string)

  datatype Container = Container(dataFiles: seq<DataFile>, signatures: seq<Signature>, mediaType: string)

  predicate Signed(c: Container)
  {
    |c.signatures| > 0
  }

  predicate HasFile(c: Container, name: string)
  {
    exists f :: f in c.dataFiles && f.fileName == name
  }

  ghost predicate UniqueNames(files: seq<DataFile>)
  {
    forall i, j :: 0 <= i < j < |files| ==> files[i].fileName != files[j].fileName
  }

  /**
   The documented container invariant: only a container with data files can
   be signed, and data file names are unique within a container.
   */
  ghost predicate Valid(c: Container)
  {
    && (Signed(c) ==> |c.dataFiles| > 0)
    && UniqueNames(c.dataFiles)
  }

  // ---------------------------------------------------------------------
  // newSignatureId
  // ---------------------------------------------------------------------

  /** Some signature of `c` has the id "S<n>". */
  predicate IdTaken(c: Container, n: nat)
  {
    exists s :: s in c.signatures && s.id == FormatId(n)
  }

  /** `n` is the smallest number whose id "S<n>" no signature of `c` uses. */
  ghost predicate SmallestFreeId(c: Container, n: nat)
  {
    !IdTaken(c, n) && forall m :: 0 <= m < n ==> IdTaken(c, m)
  }

  /** When S0 .. S(k-1) are all taken, there are at least k signatures. */
  lemma TakenPrefixBound(c: Container, k: nat)
    requires forall m :: 0 <= m < k ==> IdTaken(c, m)
    ensures k <= |c.signatures|
  {
    var ids := seq(|c.signatures|, i requires 0 <= i < |c.signatures| => c.signatures[i].id);
    forall m | 0 <= m < k
      ensures FormatId(m) in ids
    {
      assert IdTaken(c, m);
      var s :| s in c.signatures && s.id == FormatId(m);
      var i :| 0 <= i < |c.signatures| && c.signatures[i] == s;
      assert ids[i] == s.id;
    }
    Pigeonhole(ids, k);
  }

  /**
   Container::newSignatureId: counts up from 0 until "S<id>" is not the id of
   any signature. The result is fresh and minimal, and it never exceeds the
   number of signatures, so the source's `unsigned int` counter cannot wrap
   for any container with fewer than 2^32 signatures.
   */
  method NewSignatureId(c: Container) returns (id: nat)
    ensures !IdTaken(c, id)
    ensures forall m :: 0 <= m < id ==> IdTaken(c, m)
    ensures id <= |c.signatures|
  {
    id := 0;
    while IdTaken(c, id)
      invariant forall m :: 0 <= m < id ==> IdTaken(c, m)
      invariant id <= |c.signatures|
      decreases |c.signatures| - id
    {
      id := id + 1;
      TakenPrefixBound(c, id);
    }
  }

  /** A container whose signatures are S0 and S2 has exactly one smallest free id: 1. */
  lemma NewSignatureIdExample()
    ensures var c := Container([], [Signature("S0"), Signature("S2")], "");
            forall n: nat :: SmallestFreeId(c, n) <==> n == 1
  {
    var c := Container([], [Signature("S0"), Signature("S2")], "");
    assert FormatId(0) == "S0";
    assert FormatId(1) == "S1";
    assert IdTaken(c, 0);
    assert !IdTaken(c, 1);
    forall n: nat | SmallestFreeId(c, n)
      ensures n == 1
    {
    }
  }

  // ---------------------------------------------------------------------
  // Data files and signatures
  // ---------------------------------------------------------------------

  /**
   addDataFile(path, mediaType): `fileName` is the name inside the container
   that the format derives from the path, and `content` is what reading the
   path yields, None when it cannot be read. Fails when the container is
   signed, when a data file of that name exists, or when the path is unreadable.
   */
  function AddDataFile(c: Container, fileName: string, mediaType: string, content: Option<Bytes>): (r: Result<Container>)
    ensures r.Success? <==> !Signed(c) && !HasFile(c, fileName) && content.Some?
    ensures r.Success? ==>
      && r.value.signatures == c.signatures
      && r.value.mediaType == c.mediaType
      && |r.value.dataFiles| == |c.dataFiles| + 1
      && r.value.dataFiles[..|c.dataFiles|] == c.dataFiles
      && r.value.dataFiles[|c.dataFiles|] == DataFile(fileName, mediaType, content.value)
  {
    if Signed(c) then
      Failure(Error("Can not add a data file to a container that has signatures."))
    else if HasFile(c, fileName) then
      Failure(Error("A data file with the same file name already exists."))
    else if content.None? then
      Failure(Error("Data file can not be read."))
    else
      Success(c.(dataFiles := c.dataFiles + [DataFile(fileName, mediaType, content.value)]))
  }

  /**
   The base-class default of addDataFile(unique_ptr<istream>, fileName,
   mediaType): it always throws "Not implemented.". The raw-pointer overload
   wraps its stream and calls this virtual, so it reaches whatever override a
   concrete format supplies, and this default only when there is none.
   */
  function AddDataFileStream(c: Container, fileName: string, mediaType: string, content: Bytes): (r: Result<Container>)
    ensures r.Failure? && r.error.msg == "Not implemented."
  {
    Failure(Error("Not implemented."))
  }

  /** removeDataFile(index): fails when the container is signed or the index is out of range. */
  function RemoveDataFile(c: Container, index: nat): (r: Result<Container>)
    ensures r.Success? <==> !Signed(c) && index < |c.dataFiles|
    ensures r.Success? ==>
      && r.value.signatures == c.signatures
      && r.value.mediaType == c.mediaType
      && |r.value.dataFiles| == |c.dataFiles| - 1
      && (forall i :: 0 <= i < index ==> r.value.dataFiles[i] == c.dataFiles[i])
      && (forall i :: index <= i < |r.value.dataFiles| ==> r.value.dataFiles[i] == c.dataFiles[i + 1])
  {
    if Signed(c) then
      Failure(Error("Can not remove a data file from a container that has signatures."))
    else if index >= |c.dataFiles| then
      Failure(Error("Data file index out of range."))
    else
      Success(c.(dataFiles := c.dataFiles[..index] + c.dataFiles[index + 1..]))
  }

  /**
   addAdESSignature(bytes) and addAdESSignature(stream): fails when the
   container has no data files; otherwise the bytes are parsed by the concrete
   format (`parse`, which may throw) and the signature is appended.
   */
  function AddSignature(c: Container, data: Bytes, parse: Bytes -> Result<Signature>): (r: Result<Container>)
    ensures r.Success? <==> |c.dataFiles| > 0 && parse(data).Success?
    ensures |c.dataFiles| > 0 && parse(data).Failure? ==> r == Failure(parse(data).error)
    ensures r.Success? ==>
      && r.value.dataFiles == c.dataFiles
      && r.value.mediaType == c.mediaType
      && r.value.signatures == c.signatures + [parse(data).value]
  {
    if |c.dataFiles| == 0 then
      Failure(Error("No data files in container, can not add a signature."))
    else
      var s :- parse(data);
      Success(c.(signatures := c.signatures + [s]))
  }

  /** removeSignature(index): fails when the index is out of range. */
  function RemoveSignature(c: Container, index: nat): (r: Result<Container>)
    ensures r.Success? <==> index < |c.signatures|
    ensures r.Success? ==>
      && r.value.dataFiles == c.dataFiles
      && r.value.mediaType == c.mediaType
      && |r.value.signatures| == |c.signatures| - 1
      && (forall i :: 0 <= i < index ==> r.value.signatures[i] == c.signatures[i])
      && (forall i :: index <= i < |r.value.signatures| ==> r.value.signatures[i] == c.signatures[i + 1])
  {
    if index >= |c.signatures| then
      Failure(Error("Signature index out of range."))
    else
      Success(c.(signatures := c.signatures[..index] + c.signatures[index + 1..]))
  }

  /** Removing the data file just added gives back the container it was added to. */
  lemma AddThenRemoveDataFile(c: Container, fileName: string, mediaType: string, content: Bytes)
    requires AddDataFile(c, fileName, mediaType, Some(content)).Success?
    ensures RemoveDataFile(AddDataFile(c, fileName, mediaType, Some(content)).value, |c.dataFiles|) == Success(c)
  {
    var added := AddDataFile(c, fileName, mediaType, Some(content)).value;
    assert added.dataFiles[..|c.dataFiles|] + added.dataFiles[|c.dataFiles| + 1..] == c.dataFiles;
  }

  // ---------------------------------------------------------------------
  // The state machine of the documented rules
  // ---------------------------------------------------------------------

  datatype Op =
    | AddFile(fileName: string, mediaType: string, content: Option<Bytes>)
    | RemoveFile(fileIndex: nat)
    | AddSig(data: Bytes)
    | RemoveSig(sigIndex: nat)

  function Step(c: Container, op: Op, parse: Bytes -> Result<Signature>): Result<Container>
  {
    match op
    case AddFile(name, mediaType, content) => AddDataFile(c, name, mediaType, content)
    case RemoveFile(i) => RemoveDataFile(c, i)
    case AddSig(data) => AddSignature(c, data, parse)
    case RemoveSig(i) => RemoveSignature(c, i)
  }

  /** Applies `ops` in order, stopping at the first one that throws. */
  function Run(c: Container, ops: seq<Op>, parse: Bytes -> Result<Signature>): Result<Container>
    decreases |ops|
  {
    if ops == [] then Success(c)
    else
      var next :- Step(c, ops[0], parse);
      Run(next, ops[1..], parse)
  }

  /** Every successful operation keeps the documented invariant. */
  lemma StepPreservesValid(c: Container, op: Op, parse: Bytes -> Result<Signature>)
    requires Valid(c)
    ensures Step(c, op, parse).Success? ==> Valid(Step(c, op, parse).value)
  {
    if Step(c, op, parse).Success? {
      var d := Step(c, op, parse).value;
      match op
      case AddFile(name, mediaType, content) =>
        forall i, j | 0 <= i < j < |d.dataFiles|
          ensures d.dataFiles[i].fileName != d.dataFiles[j].fileName
        {
          if j == |c.dataFiles| {
            assert d.dataFiles[i] in c.dataFiles;
          }
        }
      case RemoveFile(k) =>
        forall i, j | 0 <= i < j < |d.dataFiles|
          ensures d.dataFiles[i].fileName != d.dataFiles[j].fileName
        {
          var i' := if i < k then i else i + 1;
          var j' := if j < k then j else j + 1;
          assert d.dataFiles[i] == c.dataFiles[i'] && d.dataFiles[j] == c.dataFiles[j'];
        }
      case AddSig(_) =>
      case RemoveSig(_) =>
    }
  }

  /** Once a container is signed, no successful operation changes its data files. */
  lemma SignedStepKeepsFiles(c: Container, op: Op, parse: Bytes -> Result<Signature>)
    requires Signed(c)
    ensures Step(c, op, parse).Success? ==> Step(c, op, parse).value.dataFiles == c.dataFiles
  {
  }

  /** Any run of operations keeps the documented invariant. */
  lemma {:induction false} RunPreservesValid(c: Container, ops: seq<Op>, parse: Bytes -> Result<Signature>)
    requires Valid(c)
    ensures Run(c, ops, parse).Success? ==> Valid(Run(c, ops, parse).value)
    decreases |ops|
  {
    if ops != [] {
      StepPreservesValid(c, ops[0], parse);
      if Step(c, ops[0], parse).Success? {
        RunPreservesValid(Step(c, ops[0], parse).value, ops[1..], parse);
      }
    }
  }

  /**
   Starting from a signed container, a run that removes no signature leaves
   the data files exactly as they were: signatures must be removed before the
   data file list may change.
   */
  lemma {:induction false} SignedRunKeepsFiles(c: Container, ops: seq<Op>, parse: Bytes -> Result<Signature>)
    requires Signed(c)
    requires forall k :: 0 <= k < |ops| ==> !ops[k].RemoveSig?
    ensures Run(c, ops, parse).Success? ==> Run(c, ops, parse).value.dataFiles == c.dataFiles
    decreases |ops|
  {
    if ops != [] && Step(c, ops[0], parse).Success? {
      var next := Step(c, ops[0], parse).value;
      SignedStepKeepsFiles(c, ops[0], parse);
      assert |next.signatures| >= |c.signatures|;
      SignedRunKeepsFiles(next, ops[1..], parse);
    }
  }
}

=== FILE: library.dfy ===
/**
 The process-wide state of the library, made explicit: the application name,
 the user agent and the two registries of container implementations that
 `Container::createPtr` and `Container::openPtr` probe in registration order
 before falling back to ASiC-E.

 A registry entry names the implementation whose static `createInternal` or
 `openInternal` was registered. What such a function does for a path is the
 concrete format's business; it comes in as a parameter that answers a
 container, "not mine" (a null pointer) or an exception.
 */
module Library {
  import opened Types

  /** The container implementations the library registers itself, and any other. */
  datatype Impl = PDF | SiVa | ASiCS | OtherImpl(name: string)

  /** The process-wide state of Container.cpp: both names and both registries. */
  datatype State = State(appName: string, userAgent: string, createList: seq<Impl>, openList: seq<Impl>)

  /** The state before `initialize`: both names are "libdigidocpp", nothing registered. */
  const Initial: State := State("libdigidocpp", "libdigidocpp", [], [])

  /** The two registries have equal length and the same implementation at each index. */
  predicate Aligned(lib: State)
  {
    && |lib.createList| == |lib.openList|
    && forall i :: 0 <= i < |lib.createList| ==> lib.createList[i] == lib.openList[i]
  }

  function AppInfo(lib: State): string
  {
    lib.appName
  }

  function UserAgent(lib: State): string
  {
    lib.userAgent
  }

  /** Container::addContainerImplementation<T>: registers T in both lists. */
  function AddContainerImplementation(lib: State, t: Impl): (r: State)
    ensures |r.createList| == |lib.createList| + 1 && |r.openList| == |lib.openList| + 1
    ensures r.createList[..|lib.createList|] == lib.createList
    ensures r.openList[..|lib.openList|] == lib.openList
    ensures r.createList[|lib.createList|] == t && r.openList[|lib.openList|] == t
    ensures r.appName == lib.appName && r.userAgent == lib.userAgent
    ensures Aligned(lib) ==> Aligned(r)
  {
    lib.(createList := lib.createList + [t], openList := lib.openList + [t])
  }

  /** The implementations `initialize` registers, in order. */
  function Builtins(pdfSupport: bool): seq<Impl>
  {
    (if pdfSupport then [PDF] else []) + [SiVa, ASiCS]
  }

  /** The state after `initialize` and whether it threw. */
  datatype InitResult = InitResult(lib: State, error: Option<Exception>)

  /**
   initialize(appInfo, userAgent, callBack). The names are assigned first, so
   they change even when a later step throws. `cryptoInit` is the outcome of
   the libxml2/xmlsec/OpenSSL start-up; when it throws nothing is registered.
   Otherwise PDF (when built with PDF support), SiVa and ASiC-S are registered
   in that order. `certStore` is the outcome of loading the certificate store:
   with a callback it is reported to the callback from a background thread,
   without one it is thrown from `initialize` itself.
   */
  function Initialize(lib: State, appInfo: string, userAgent: string, pdfSupport: bool,
                      cryptoInit: Option<Exception>, hasCallback: bool, certStore: Option<Exception>): (r: InitResult)
    ensures r.lib.appName == appInfo && r.lib.userAgent == userAgent
    ensures cryptoInit.Some? ==> r.error == cryptoInit
    ensures cryptoInit.Some? ==> r.lib.createList == lib.createList && r.lib.openList == lib.openList
    ensures cryptoInit.None? ==> r.lib.createList == lib.createList + Builtins(pdfSupport)
    ensures cryptoInit.None? ==> r.lib.openList == lib.openList + Builtins(pdfSupport)
    ensures cryptoInit.None? ==> r.error == (if hasCallback then None else certStore)
    ensures Aligned(lib) ==> Aligned(r.lib)
  {
    var named := lib.(appName := appInfo, userAgent := userAgent);
    if cryptoInit.Some? then
      InitResult(named, cryptoInit)
    else
      var withPdf := if pdfSupport then AddContainerImplementation(named, PDF) else named;
      var registered := AddContainerImplementation(AddContainerImplementation(withPdf, SiVa), ASiCS);
      InitResult(registered, if hasCallback then None else certStore)
  }

  /** initialize(appInfo, callBack): the application name doubles as the user agent. */
  function InitializeApp(lib: State, appInfo: string, pdfSupport: bool,
                         cryptoInit: Option<Exception>, hasCallback: bool, certStore: Option<Exception>): (r: InitResult)
    ensures r.lib.appName == appInfo && r.lib.userAgent == appInfo
    ensures r == Initialize(lib, appInfo, appInfo, pdfSupport, cryptoInit, hasCallback, certStore)
  {
    Initialize(lib, appInfo, appInfo, pdfSupport, cryptoInit, hasCallback, certStore)
  }

  /** terminate(): both registries and both names are cleared. */
  function Terminate(lib: State): (r: State)
    ensures r.createList == [] && r.openList == [] && r.appName == "" && r.userAgent == ""
    ensures Aligned(r)
  {
    State("", "", [], [])
  }

  /** The operations that change the process-wide state. */
  datatype Op =
    | AddImpl(impl: Impl)
    | Init(appInfo: string, userAgent: string, pdfSupport: bool,
           cryptoInit: Option<Exception>, hasCallback: bool, certStore: Option<Exception>)
    | Term

  function Apply(lib: State, op: Op): State
  {
    match op
    case AddImpl(t) => AddContainerImplementation(lib, t)
    case Init(appInfo, userAgent, pdfSupport, cryptoInit, hasCallback, certStore) =>
      Initialize(lib, appInfo, userAgent, pdfSupport, cryptoInit, hasCallback, certStore).lib
    case Term => Terminate(lib)
  }

  /** The state after `ops`, applied in order. A throwing `initialize` still leaves its state behind. */
  function Replay(lib: State, ops: seq<Op>): State
    decreases |ops|
  {
    if ops == [] then lib else Replay(Apply(lib, ops[0]), ops[1..])
  }

  /** Every sequence of registrations, initializations and terminations keeps the registries aligned. */
  lemma {:induction false} ReplayKeepsAligned(lib: State, ops: seq<Op>)
    requires Aligned(lib)
    ensures Aligned(Replay(lib, ops))
    decreases |ops|
  {
    if ops != [] {
      ReplayKeepsAligned(Apply(lib, ops[0]), ops[1..]);
    }
  }

  /**
   In every state the process can reach, the create and open registries are
   index-aligned: entry i of both belongs to the same implementation.
   */
  lemma ReachableStatesAligned(ops: seq<Op>)
    ensures Aligned(Replay(Initial, ops))
  {
    ReplayKeepsAligned(Initial, ops);
  }

  /** Registering implementations never changes what appInfo() and userAgent() report. */
  lemma {:induction false} RegistrationKeepsNames(lib: State, ops: seq<Op>)
    requires forall k :: 0 <= k < |ops| ==> ops[k].AddImpl?
    ensures AppInfo(Replay(lib, ops)) == AppInfo(lib)
    ensures UserAgent(Replay(lib, ops)) == UserAgent(lib)
    decreases |ops|
  {
    if ops != [] {
      RegistrationKeepsNames(Apply(lib, ops[0]), ops[1..]);
    }
  }

  /**
   appInfo() and userAgent() report the names the last `initialize` was given,
   whether or not it threw, however many registrations followed it.
   */
  lemma NamesReportLastInitialize(lib: State, ops: seq<Op>)
    requires |ops| > 0 && ops[0].Init?
    requires forall k :: 1 <= k < |ops| ==> ops[k].AddImpl?
    ensures AppInfo(Replay(lib, ops)) == ops[0].appInfo
    ensures UserAgent(Replay(lib, ops)) == ops[0].userAgent
  {
    assert forall k :: 0 <= k < |ops[1..]| ==> ops[1..][k] == ops[k + 1];
    RegistrationKeepsNames(Apply(lib, ops[0]), ops[1..]);
  }

  /** After terminate, a successful initialize registers exactly the built-in formats. */
  lemma TerminateThenInitialize(lib: State, appInfo: string, userAgent: string, pdfSupport: bool,
                                hasCallback: bool, certStore: Option<Exception>)
    ensures var r := Initialize(Terminate(lib), appInfo, userAgent, pdfSupport, None, hasCallback, certStore);
            r.lib == State(appInfo, userAgent, Builtins(pdfSupport), Builtins(pdfSupport))
  {
  }

  // ---------------------------------------------------------------------
  // Format resolution
  // ---------------------------------------------------------------------

  /** The probe declined: it returned a null container without throwing. */
  predicate Declines<C>(outcome: Result<Option<C>>)
  {
    outcome.Success? && outcome.value.None?
  }

  /** What a probe that did not decline hands back: its container or its exception. */
  function Answer<C>(outcome: Result<Option<C>>): Result<C>
    requires !Declines(outcome)
  {
    match outcome
    case Success(c) => Success(c.value)
    case Failure(e) => Failure(e)
  }

  /** Index `i` holds the first probe in `probes` that does not decline. */
  ghost predicate FirstAnswer<C>(probes: seq<Impl>, attempt: Impl -> Result<Option<C>>, i: nat)
  {
    && i < |probes|
    && !Declines(attempt(probes[i]))
    && forall j :: 0 <= j < i ==> Declines(attempt(probes[j]))
  }

  /**
   The loop shared by createPtr and openPtr: try each probe in order; the
   first that returns a container, or throws, decides; when every probe
   declines, the fallback decides.
   */
  function Resolve<C>(probes: seq<Impl>, attempt: Impl -> Result<Option<C>>, fallback: Result<C>): (r: Result<C>)
    ensures (forall j :: 0 <= j < |probes| ==> Declines(attempt(probes[j]))) ==> r == fallback
    ensures forall i: nat :: FirstAnswer(probes, attempt, i) ==> r == Answer(attempt(probes[i]))
    decreases |probes|
  {
    if probes == [] then fallback
    else if !Declines(attempt(probes[0])) then Answer(attempt(probes[0]))
    else
      var r := Resolve(probes[1..], attempt, fallback);
      assert forall i: nat :: FirstAnswer(probes, attempt, i) && i > 0 ==> FirstAnswer(probes[1..], attempt, i - 1);
      r
  }

  /**
   Once a prefix of the registry holds a probe that answers, nothing after
   that prefix, and not the fallback, is consulted.
   */
  lemma {:induction false} ResolveStopsAtAnswer<C>(front: seq<Impl>, back: seq<Impl>, attempt: Impl -> Result<Option<C>>,
                                                    fallback: Result<C>, otherFallback: Result<C>)
    requires exists j :: 0 <= j < |front| && !Declines(attempt(front[j]))
    ensures Resolve(front + back, attempt, fallback) == Resolve(front, attempt, otherFallback)
    decreases |front|
  {
    if Declines(attempt(front[0])) {
      var j :| 0 <= j < |front| && !Declines(attempt(front[j]));
      assert j > 0 && !Declines(attempt(front[1..][j - 1]));
      assert (front + back)[1..] == front[1..] + back;
      ResolveStopsAtAnswer(front[1..], back, attempt, fallback, otherFallback);
    }
  }

  /**
   Container::createPtr(path): the first registered createInternal that returns
   a container (or throws) decides; when all return null, ASiC_E::createInternal.
   */
  function CreatePtr<C>(lib: State, path: string, create: (Impl, string) -> Result<Option<C>>,
                        createAsicE: string -> Result<C>): (r: Result<C>)
    ensures (forall j :: 0 <= j < |lib.createList| ==> Declines(create(lib.createList[j], path)))
            ==> r == createAsicE(path)
    ensures forall i :: 0 <= i < |lib.createList| && !Declines(create(lib.createList[i], path))
                        && (forall j :: 0 <= j < i ==> Declines(create(lib.createList[j], path)))
                        ==> r == Answer(create(lib.createList[i], path))
  {
    var attempt := (t: Impl) => create(t, path);
    var r := Resolve(lib.createList, attempt, createAsicE(path));
    assert forall i :: 0 <= i < |lib.createList| && !Declines(create(lib.createList[i], path))
                       && (forall j :: 0 <= j < i ==> Declines(create(lib.createList[j], path)))
                       ==> FirstAnswer(lib.createList, attempt, i);
    r
  }

  /**
   Container::openPtr(path, cb): the same first-answer rule over the open
   registry, each probe getting the callback; when all return null,
   ASiC_E::openInternal(path), which is not given the callback.
   */
  function OpenPtr<C, CB>(lib: State, path: string, cb: Option<CB>, open: (Impl, string, Option<CB>) -> Result<Option<C>>,
                          openAsicE: string -> Result<C>): (r: Result<C>)
    ensures (forall j :: 0 <= j < |lib.openList| ==> Declines(open(lib.openList[j], path, cb)))
            ==> r == openAsicE(path)
    ensures forall i :: 0 <= i < |lib.openList| && !Declines(open(lib.openList[i], path, cb))
                        && (forall j :: 0 <= j < i ==> Declines(open(lib.openList[j], path, cb)))
                        ==> r == Answer(open(lib.openList[i], path, cb))
  {
    var attempt := (t: Impl) => open(t, path, cb);
    var r := Resolve(lib.openList, attempt, openAsicE(path));
    assert forall i :: 0 <= i < |lib.openList| && !Declines(open(lib.openList[i], path, cb))
                       && (forall j :: 0 <= j < i ==> Declines(open(lib.openList[j], path, cb)))
                       ==> FirstAnswer(lib.openList, attempt, i);
    r
  }

  /** Container::openPtr(path): the first-answer rule with every probe given no callback. */
  function OpenPtrNoCallback<C, CB>(lib: State, path: string, open: (Impl, string, Option<CB>) -> Result<Option<C>>,
                                    openAsicE: string -> Result<C>): (r: Result<C>)
    ensures (forall j :: 0 <= j < |lib.openList| ==> Declines(open(lib.openList[j], path, None)))
            ==> r == openAsicE(path)
    ensures forall i :: 0 <= i < |lib.openList| && !Declines(open(lib.openList[i], path, None))
                        && (forall j :: 0 <= j < i ==> Declines(open(lib.openList[j], path, None)))
                        ==> r == Answer(open(lib.openList[i], path, None))
  {
    OpenPtr(lib, path, None, open, openAsicE)
  }
}

=== FILE: signature_ids.dfy ===
/**
 Signature identifiers of the form "S<n>", as `Log::format("S%u", n)` writes
 them, and the counting fact behind `Container::newSignatureId`: if the ids
 S0 .. S(k-1) all occur among a container's signature ids, the container has
 at least k signatures.
 */
module SignatureIds {

  /** The character of a decimal digit. */
  function Digit(d: nat): char
    requires d < 10
  {
    ('0' as int + d) as char
  }

  /** The decimal digits of `n` as `%u` prints them: no sign and no leading zero. */
  function Decimal(n: nat): (s: string)
    ensures |s| >= 1
    ensures n < 10 <==> |s| == 1
    ensures forall i :: 0 <= i < |s| ==> '0' <= s[i] <= '9'
    ensures n >= 10 ==> s[0] != '0'
  {
    if n < 10 then [Digit(n)] else Decimal(n / 10) + [Digit(n % 10)]
  }

  /** The signature id with number `n`. */
  function FormatId(n: nat): string
  {
    "S" + Decimal(n)
  }

  /** Distinct numbers print differently, so "S%u" names each number once. */
  lemma {:induction false} DecimalDistinct(a: nat, b: nat)
    requires a != b
    ensures Decimal(a) != Decimal(b)
    decreases a
  {
    if a < 10 && b < 10 {
      assert Decimal(a)[0] != Decimal(b)[0];
    } else if a < 10 || b < 10 {
      assert |Decimal(a)| != |Decimal(b)|;
    } else if a % 10 != b % 10 {
      var sa, sb := Decimal(a), Decimal(b);
      assert sa[|sa| - 1] == Digit(a % 10);
      assert sb[|sb| - 1] == Digit(b % 10);
    } else {
      DecimalDistinct(a / 10, b / 10);
      var sa, sb := Decimal(a), Decimal(b);
      assert sa[..|sa| - 1] == Decimal(a / 10);
      assert sb[..|sb| - 1] == Decimal(b / 10);
    }
  }

  lemma FormatIdDistinct(a: nat, b: nat)
    requires a != b
    ensures FormatId(a) != FormatId(b)
  {
    DecimalDistinct(a, b);
    assert FormatId(a)[1..] == Decimal(a);
    assert FormatId(b)[1..] == Decimal(b);
  }

  /** The set of strings occurring in `s`. */
  function Elems(s: seq<string>): set<string>
  {
    set x | x in s
  }

  lemma {:induction false} ElemsBound(s: seq<string>)
    ensures |Elems(s)| <= |s|
  {
    if s != [] {
      var init := s[..|s| - 1];
      ElemsBound(init);
      assert Elems(s) == Elems(init) + {s[|s| - 1]};
    }
  }

  /** If S0 .. S(k-1) all lie in `ids`, then `ids` has at least k elements. */
  lemma {:induction false} PigeonholeSet(ids: set<string>, k: nat)
    requires forall m :: 0 <= m < k ==> FormatId(m) in ids
    ensures k <= |ids|
  {
    if k > 0 {
      var rest := ids - {FormatId(k - 1)};
      forall m | 0 <= m < k - 1
        ensures FormatId(m) in rest
      {
        FormatIdDistinct(m, k - 1);
      }
      PigeonholeSet(rest, k - 1);
    }
  }

  /** The sequence form: a list of ids holding S0 .. S(k-1) has at least k entries. */
  lemma Pigeonhole(ids: seq<string>, k: nat)
    requires forall m :: 0 <= m < k ==> FormatId(m) in ids
    ensures k <= |ids|
  {
    ElemsBound(ids);
    PigeonholeSet(Elems(ids), k);
  }
}

=== FILE: timestamps.dfy ===
/**
 `digidoc::SignatureTST`, the signature of an ASiC-S container that is a bare
 RFC 3161 timestamp token, and its validation.

 Everything the validator calls but does not decide itself (digest
 computation, the token's own cryptographic verification, the weak-digest
 classification, URI-to-file-name resolution and the process-wide warning
 filter) is a field of `Collaborators`. What remains, and what is modelled
 here, is the order in which checks run and how their failures accumulate as
 causes of one "Timestamp validation." exception.
 */
module Timestamps {
  import opened Types

  /** A parsed timestamp token (crypto/TS): what the signature reads from it. */
  datatype TimeStampToken = TimeStampToken(
    serial: string,
    digestMethod: string,
    time: int,
    cert: Bytes,
    imprint: Bytes,
    encoded: Bytes)

  /** One DataObjectReference of an ASiC-S digest manifest, in document order. */
  datatype Reference = Reference(uri: string, algorithm: string, value: Bytes)

  /**
   A timestamp signature: its token, the name of the file it covers ("" when
   it covers the container's first data file), the digest manifest it was
   read with, if any, and the data files of the ASiC-S container it belongs
   to. Every constructor below yields a token; `None` stands for the null
   token that validate() checks for before anything else. The data files are
   a copy of the container's list, read when the signature is used.
   */
  datatype SignatureTST = SignatureTST(
    token: Option<TimeStampToken>,
    file: string,
    manifest: Option<seq<Reference>>,
    dataFiles: seq<DataFile>)

  /** The services the validator relies on, each of which may throw where the source's may. */
  datatype Collaborators = Collaborators(
    calcDigest: (DataFile, string) -> Result<Bytes>,
    fileDigest: (string, string) -> Result<Bytes>,
    verify: (TimeStampToken, Bytes) -> Outcome,
    isWeakDigest: string -> bool,
    fromUriPath: string -> string,
    weakWarningIgnored: bool)

  const ValidationMessage: string := "Timestamp validation."
  const ParseFailureMessage: string := "Failed to parse timestamp token."

  /** ASiC_S::ASIC_TST_PROFILE. */
  const AsicTstProfile: string := "TimeStampToken"

  /** The warning cause for a weak token digest method; its code marks it as advisory. */
  function WeakDigestWarning(digestMethod: string): Exception
  {
    Exception("TimeStamp '" + digestMethod + "' digest weak", ReferenceDigestWeak, [])
  }

  function ReferenceMismatch(uri: string): Exception
  {
    Error("Reference " + uri + " digest does not match")
  }

  /** The top-level exception `validate` throws, carrying `causes` in insertion order. */
  function ValidationError(causes: seq<Exception>): Exception
  {
    Exception(ValidationMessage, General, causes)
  }

  // ---------------------------------------------------------------------
  // Construction and accessors
  // ---------------------------------------------------------------------

  /** SignatureTST(data, asicSDoc): parse the token bytes; a parse failure throws from the constructor. */
  function FromBytes(data: Bytes, dataFiles: seq<DataFile>, parse: Bytes -> Result<TimeStampToken>): (r: Result<SignatureTST>)
    ensures r.Success? <==> parse(data).Success?
    ensures r.Success? ==> r.value.token == Some(parse(data).value) && r.value.file == "" && r.value.manifest.None?
                           && r.value.dataFiles == dataFiles
    ensures r.Failure? ==> r.error == parse(data).error
  {
    var token :- parse(data);
    Success(SignatureTST(Some(token), "", None, dataFiles))
  }

  /** SignatureTST(current, xml, data, asicSDoc): as above, remembering the covered file and the manifest. */
  function FromManifest(current: string, manifest: seq<Reference>, data: Bytes, dataFiles: seq<DataFile>,
                        parse: Bytes -> Result<TimeStampToken>): (r: Result<SignatureTST>)
    ensures r.Success? <==> parse(data).Success?
    ensures r.Success? ==> r.value.token == Some(parse(data).value) && r.value.file == current
                           && r.value.manifest == Some(manifest) && r.value.dataFiles == dataFiles
    ensures r.Failure? ==> r.error == parse(data).error
  {
    var s :- FromBytes(data, dataFiles, parse);
    Success(s.(file := current, manifest := Some(manifest)))
  }

  /**
   SignatureTST(asicSDoc, signer): digest the container's first data file with
   the default digest method and request a token for that digest from the
   timestamping authority (`requestToken`, given method, digest and the
   signer's user agent). Either step may throw.
   */
  function Fresh(env: Collaborators, dataFiles: seq<DataFile>, defaultMethod: string, userAgent: string,
                 requestToken: (string, Bytes, string) -> Result<TimeStampToken>): (r: Result<SignatureTST>)
    requires |dataFiles| > 0
    ensures var d := env.calcDigest(dataFiles[0], defaultMethod);
            r.Success? <==> d.Success? && requestToken(defaultMethod, d.value, userAgent).Success?
    ensures var d := env.calcDigest(dataFiles[0], defaultMethod);
            d.Failure? ==> r == Failure(d.error)
    ensures var d := env.calcDigest(dataFiles[0], defaultMethod);
            d.Success? && requestToken(defaultMethod, d.value, userAgent).Failure?
            ==> r == Failure(requestToken(defaultMethod, d.value, userAgent).error)
    ensures r.Success? ==> r.value.token == Some(requestToken(defaultMethod, env.calcDigest(dataFiles[0], defaultMethod).value, userAgent).value)
    ensures r.Success? ==> r.value.file == "" && r.value.manifest.None? && r.value.dataFiles == dataFiles
  {
    var digest :- env.calcDigest(dataFiles[0], defaultMethod);
    var token :- requestToken(defaultMethod, digest, userAgent);
    Success(SignatureTST(Some(token), "", None, dataFiles))
  }

  function TimeStampTime(s: SignatureTST): int
    requires s.token.Some?
  {
    s.token.value.time
  }

  function TimeStampCertificate(s: SignatureTST): Bytes
    requires s.token.Some?
  {
    s.token.value.cert
  }

  function TrustedSigningTime(s: SignatureTST): int
    requires s.token.Some?
  {
    TimeStampTime(s)
  }

  function ClaimedSigningTime(s: SignatureTST): int
    requires s.token.Some?
  {
    TimeStampTime(s)
  }

  function SigningCertificate(s: SignatureTST): Bytes
    requires s.token.Some?
  {
    TimeStampCertificate(s)
  }

  /** id(): the token's serial number, not a container-assigned "S<n>". */
  function Id(s: SignatureTST): string
    requires s.token.Some?
  {
    s.token.value.serial
  }

  function SignatureMethod(s: SignatureTST): string
    requires s.token.Some?
  {
    s.token.value.digestMethod
  }

  function MessageImprint(s: SignatureTST): Bytes
    requires s.token.Some?
  {
    s.token.value.imprint
  }

  /** save(): the token's encoded bytes, with no wrapper. */
  function Save(s: SignatureTST): Bytes
    requires s.token.Some?
  {
    s.token.value.encoded
  }

  /** setSignatureValue: a timestamp signature's value is fixed by its token. */
  function SetSignatureValue(s: SignatureTST, signatureValue: Bytes): (r: Outcome)
    ensures r.Fail? && r.error.msg == "Not implemented."
  {
    Fail(Error("Not implemented."))
  }

  function Profile(s: SignatureTST): (r: string)
    ensures r == AsicTstProfile
  {
    AsicTstProfile
  }

  /** The accessors all read the token: both signing times are its time, and so on. */
  lemma AccessorsDelegate(s: SignatureTST)
    requires s.token.Some?
    ensures ClaimedSigningTime(s) == TrustedSigningTime(s) == s.token.value.time
    ensures SigningCertificate(s) == s.token.value.cert
    ensures Id(s) == s.token.value.serial
    ensures SignatureMethod(s) == s.token.value.digestMethod
    ensures Save(s) == s.token.value.encoded
  {
  }

  /**
   save() then re-open: when the token encoding round-trips through the parser,
   the re-opened signature carries the same token, hence the same id, method,
   imprint and times.
   */
  lemma SaveOpenRoundTrip(s: SignatureTST, parse: Bytes -> Result<TimeStampToken>)
    requires s.token.Some? && parse(s.token.value.encoded) == Success(s.token.value)
    ensures FromBytes(Save(s), s.dataFiles, parse) == Success(s.(file := "", manifest := None))
    ensures var t := FromBytes(Save(s), s.dataFiles, parse).value;
            Id(t) == Id(s) && SignatureMethod(t) == SignatureMethod(s) && MessageImprint(t) == MessageImprint(s)
  {
  }

  // ---------------------------------------------------------------------
  // dataToSign
  // ---------------------------------------------------------------------

  /** dataToSign() can run: it reads the token, and the first data file unless a file is named. */
  predicate CanDigest(s: SignatureTST)
  {
    s.token.Some? && (s.file != "" || |s.dataFiles| > 0)
  }

  /**
   dataToSign(): the digest, under the token's digest method, of the named
   file when there is one, else of the container's first data file.
   */
  function DataToSign(env: Collaborators, s: SignatureTST): Result<Bytes>
    requires CanDigest(s)
  {
    if s.file != "" then env.fileDigest(s.file, SignatureMethod(s))
    else env.calcDigest(s.dataFiles[0], SignatureMethod(s))
  }

  /**
   Only the first data file can matter to dataToSign(), and none does when a
   file is named: signatures that agree on token, file name and first data
   file have the same pre-image.
   */
  lemma DataToSignReadsOnlyFront(env: Collaborators, s: SignatureTST, t: SignatureTST)
    requires CanDigest(s) && CanDigest(t)
    requires s.token == t.token && s.file == t.file
    requires s.file == "" ==> s.dataFiles[0] == t.dataFiles[0]
    ensures DataToSign(env, s) == DataToSign(env, t)
  {
  }

  /**
   A freshly created signature's pre-image is the digest its token was
   requested for, whenever the authority issues the token under the method it
   was asked for.
   */
  lemma FreshDataToSign(env: Collaborators, dataFiles: seq<DataFile>, defaultMethod: string, userAgent: string,
                        requestToken: (string, Bytes, string) -> Result<TimeStampToken>)
    requires |dataFiles| > 0
    requires var s := Fresh(env, dataFiles, defaultMethod, userAgent, requestToken);
             s.Success? ==> s.value.token.value.digestMethod == defaultMethod
    ensures var s := Fresh(env, dataFiles, defaultMethod, userAgent, requestToken);
            s.Success? ==>
              && env.calcDigest(dataFiles[0], defaultMethod).Success?
              && requestToken(defaultMethod, env.calcDigest(dataFiles[0], defaultMethod).value, userAgent)
                 == Success(s.value.token.value)
              && DataToSign(env, s.value) == env.calcDigest(dataFiles[0], defaultMethod)
  {
  }

  // ---------------------------------------------------------------------
  // Manifest reference checks
  // ---------------------------------------------------------------------

  /**
   The digest a reference is checked against: the first data file's own
   calcDigest when the resolved URI names it, else the container's fileDigest.
   */
  function ActualDigest(env: Collaborators, front: DataFile, ref: Reference): Result<Bytes>
  {
    var uri := env.fromUriPath(ref.uri);
    if front.fileName == uri then env.calcDigest(front, ref.algorithm) else env.fileDigest(uri, ref.algorithm)
  }

  /** The reference's declared digest is the one computed for it. */
  predicate Matches(env: Collaborators, front: DataFile, ref: Reference)
  {
    ActualDigest(env, front, ref) == Success(ref.value)
  }

  /** What checking one reference throws, if anything. */
  function CheckReference(env: Collaborators, front: DataFile, ref: Reference): (r: Option<Exception>)
    ensures r.None? <==> Matches(env, front, ref)
    ensures ActualDigest(env, front, ref).Failure? ==> r == Some(ActualDigest(env, front, ref).error)
    ensures ActualDigest(env, front, ref).Success? && r.Some? ==> r == Some(ReferenceMismatch(env.fromUriPath(ref.uri)))
  {
    match ActualDigest(env, front, ref)
    case Failure(e) => Some(e)
    case Success(digest) =>
      if digest != ref.value then Some(ReferenceMismatch(env.fromUriPath(ref.uri))) else None
  }

  /** Index `i` holds the first reference that does not match. */
  ghost predicate FirstFailing(env: Collaborators, front: DataFile, refs: seq<Reference>, i: nat)
  {
    && i < |refs|
    && !Matches(env, front, refs[i])
    && forall j :: 0 <= j < i ==> Matches(env, front, refs[j])
  }

  /**
   The reference loop: references are checked in document order and the first
   one that does not match throws, so no later one is looked at.
   */
  function CheckReferences(env: Collaborators, front: DataFile, refs: seq<Reference>): (r: Option<Exception>)
    ensures r.None? <==> forall j :: 0 <= j < |refs| ==> Matches(env, front, refs[j])
    ensures forall i: nat :: FirstFailing(env, front, refs, i) ==> r == CheckReference(env, front, refs[i])
    decreases |refs|
  {
    if refs == [] then None
    else
      match CheckReference(env, front, refs[0])
      case Some(e) => Some(e)
      case None =>
        var r := CheckReferences(env, front, refs[1..]);
        assert forall i: nat :: FirstFailing(env, front, refs, i) ==> i > 0 && FirstFailing(env, front, refs[1..], i - 1);
        r
  }

  /** References after one that fails never influence the outcome. */
  lemma {:induction false} CheckReferencesStopsAtFailure(env: Collaborators, front: DataFile,
                                                         checked: seq<Reference>, rest: seq<Reference>)
    requires exists j :: 0 <= j < |checked| && !Matches(env, front, checked[j])
    ensures CheckReferences(env, front, checked + rest) == CheckReferences(env, front, checked)
    decreases |checked|
  {
    if Matches(env, front, checked[0]) {
      var j :| 0 <= j < |checked| && !Matches(env, front, checked[j]);
      assert j > 0 && !Matches(env, front, checked[1..][j - 1]);
      assert (checked + rest)[1..] == checked[1..] + rest;
      CheckReferencesStopsAtFailure(env, front, checked[1..], rest);
    }
  }

  lemma CheckReferencesAfterMatch(env: Collaborators, front: DataFile, refs: seq<Reference>)
    requires refs != [] && Matches(env, front, refs[0])
    ensures CheckReferences(env, front, refs) == CheckReferences(env, front, refs[1..])
  {
    assert CheckReference(env, front, refs[0]).None?;
  }

  /** References that all match may be followed by anything: the outcome is that of what follows. */
  lemma {:induction false} CheckReferencesSkipsMatching(env: Collaborators, front: DataFile,
                                                        checked: seq<Reference>, rest: seq<Reference>)
    requires forall j :: 0 <= j < |checked| ==> Matches(env, front, checked[j])
    ensures CheckReferences(env, front, checked + rest) == CheckReferences(env, front, rest)
    decreases |checked|
  {
    if checked != [] {
      var all := checked + rest;
      var tail := checked[1..];
      assert all[0] == checked[0];
      assert Matches(env, front, checked[0]);
      CheckReferencesAfterMatch(env, front, all);
      assert all[1..] == tail + rest;
      assert forall j :: 0 <= j < |tail| ==> Matches(env, front, tail[j]);
      CheckReferencesSkipsMatching(env, front, tail, rest);
    } else {
      assert checked + rest == rest;
    }
  }

  // ---------------------------------------------------------------------
  // validate
  // ---------------------------------------------------------------------

  /** The token verified against dataToSign(): the step the weak-digest and reference checks depend on. */
  predicate Verified(env: Collaborators, s: SignatureTST)
    requires CanDigest(s)
  {
    DataToSign(env, s).Success? && env.verify(s.token.value, DataToSign(env, s).value).Pass?
  }

  /**
   validate() never reads past the end of the data-file list: with a token it
   computes dataToSign(), and once the token has verified it reads the
   container's first data file if there is a manifest to check.
   */
  predicate CanValidate(env: Collaborators, s: SignatureTST)
  {
    s.token.Some? ==> CanDigest(s) && (s.manifest.Some? && Verified(env, s) ==> |s.dataFiles| > 0)
  }

  /** The weak-digest warning is due: the warning is not filtered and the token's method is weak. */
  predicate WeakWarningDue(env: Collaborators, s: SignatureTST)
    requires s.token.Some?
  {
    !env.weakWarningIgnored && env.isWeakDigest(SignatureMethod(s))
  }

  /** The weak-digest cause, when it is due. */
  function WeakCauses(env: Collaborators, s: SignatureTST): seq<Exception>
    requires s.token.Some?
  {
    if WeakWarningDue(env, s) then [WeakDigestWarning(SignatureMethod(s))] else []
  }

  /** The cause the manifest's reference loop contributes, if any. */
  function ReferenceCauses(env: Collaborators, s: SignatureTST): seq<Exception>
    requires s.token.Some?
    requires s.manifest.Some? ==> |s.dataFiles| > 0
  {
    if s.manifest.None? then []
    else
      match CheckReferences(env, s.dataFiles[0], s.manifest.value)
      case Some(e) => [e]
      case None => []
  }

  /**
   The causes the try block of validate() accumulates: a throw from dataToSign()
   or from the token's verification is the only cause; after a successful
   verification the weak-digest warning comes first, and the exception of the
   first failing manifest reference, caught by the same block, after it.
   */
  function Causes(env: Collaborators, s: SignatureTST): seq<Exception>
    requires CanValidate(env, s)
    requires s.token.Some?
  {
    match DataToSign(env, s)
    case Failure(e) => [e]
    case Success(digest) =>
      match env.verify(s.token.value, digest)
      case Fail(e) => [e]
      case Pass => WeakCauses(env, s) + ReferenceCauses(env, s)
  }

  /**
   SignatureTST::validate(): without a token it throws at once with the parse
   failure as its only cause; otherwise it throws the top-level exception with
   every accumulated cause, in order, and returns normally when there is none.
   */
  function Validate(env: Collaborators, s: SignatureTST): (r: Outcome)
    requires CanValidate(env, s)
    ensures s.token.None? ==> r == Fail(ValidationError([Error(ParseFailureMessage)]))
    ensures r.Fail? ==> r.error.msg == ValidationMessage && r.error.code == General && |r.error.causes| >= 1
    ensures s.token.Some? ==> (r.Pass? <==> Causes(env, s) == [])
    ensures s.token.Some? && r.Fail? ==> r.error.causes == Causes(env, s)
  {
    if s.token.None? then
      Fail(ValidationError([Error(ParseFailureMessage)]))
    else
      var causes := Causes(env, s);
      if causes == [] then Pass else Fail(ValidationError(causes))
  }

  /** Without a token no collaborator is consulted: the result is the same for every environment. */
  lemma MissingTokenConsultsNothing(env: Collaborators, other: Collaborators, s: SignatureTST)
    requires s.token.None?
    ensures Validate(env, s) == Validate(other, s)
    ensures |Validate(env, s).error.causes| == 1
  {
  }

  /**
   validate() returns normally exactly when every check passes: the token is
   present, dataToSign() computes, the token verifies against it, no
   weak-digest warning is due, and every manifest reference matches.
   */
  lemma ValidatePassesIffAllChecksPass(env: Collaborators, s: SignatureTST)
    requires CanValidate(env, s)
    ensures Validate(env, s).Pass? <==>
      && s.token.Some?
      && Verified(env, s)
      && !WeakWarningDue(env, s)
      && (s.manifest.Some? ==>
            forall j :: 0 <= j < |s.manifest.value| ==> Matches(env, s.dataFiles[0], s.manifest.value[j]))
  {
    if s.token.Some? && Verified(env, s) && s.manifest.Some? {
      assert Causes(env, s) == WeakCauses(env, s) + ReferenceCauses(env, s);
    }
  }

  /** A throw from dataToSign() is the only cause: nothing after it in the try block runs. */
  lemma DataToSignFailureIsOnlyCause(env: Collaborators, s: SignatureTST)
    requires CanValidate(env, s) && CanDigest(s)
    requires DataToSign(env, s).Failure?
    ensures Validate(env, s) == Fail(ValidationError([DataToSign(env, s).error]))
  {
  }

  /**
   A verification failure is recorded as the only cause: neither the weak-digest
   check nor any reference check follows it.
   */
  lemma VerificationFailureIsOnlyCause(env: Collaborators, s: SignatureTST)
    requires CanValidate(env, s) && CanDigest(s)
    requires DataToSign(env, s).Success?
    requires env.verify(s.token.value, DataToSign(env, s).value).Fail?
    ensures Validate(env, s) == Fail(ValidationError([env.verify(s.token.value, DataToSign(env, s).value).error]))
  {
  }

  /** No collaborator this signature's validation consults throws an exception with the weak-digest code. */
  ghost predicate CollaboratorErrorsGeneral(env: Collaborators, s: SignatureTST)
    requires CanValidate(env, s) && CanDigest(s)
  {
    && (DataToSign(env, s).Failure? ==> DataToSign(env, s).error.code == General)
    && (DataToSign(env, s).Success? && env.verify(s.token.value, DataToSign(env, s).value).Fail?
        ==> env.verify(s.token.value, DataToSign(env, s).value).error.code == General)
    && (s.manifest.Some? && Verified(env, s) ==>
          forall j :: 0 <= j < |s.manifest.value| && ActualDigest(env, s.dataFiles[0], s.manifest.value[j]).Failure?
                      ==> ActualDigest(env, s.dataFiles[0], s.manifest.value[j]).error.code == General)
  }

  /** Some cause of a failed validation carries the weak-digest code. */
  predicate HasWeakWarning(r: Outcome)
  {
    r.Fail? && exists k :: 0 <= k < |r.error.causes| && r.error.causes[k].code == ReferenceDigestWeak
  }

  lemma {:induction false} CheckReferencesErrorGeneral(env: Collaborators, front: DataFile, refs: seq<Reference>)
    requires forall j :: 0 <= j < |refs| && ActualDigest(env, front, refs[j]).Failure?
                         ==> ActualDigest(env, front, refs[j]).error.code == General
    ensures CheckReferences(env, front, refs).Some? ==> CheckReferences(env, front, refs).value.code == General
    decreases |refs|
  {
    if refs != [] && CheckReference(env, front, refs[0]).None? {
      CheckReferencesErrorGeneral(env, front, refs[1..]);
    }
  }

  /**
   The weak-digest warning is among the causes exactly when verification
   succeeded, the warning is not filtered and the digest method is weak; it
   is then the first cause, and it alone makes validate() throw.
   */
  lemma WeakWarningIff(env: Collaborators, s: SignatureTST)
    requires CanValidate(env, s) && CanDigest(s)
    requires CollaboratorErrorsGeneral(env, s)
    ensures HasWeakWarning(Validate(env, s)) <==> Verified(env, s) && WeakWarningDue(env, s)
    ensures Verified(env, s) && WeakWarningDue(env, s) ==>
              Validate(env, s).Fail? && Validate(env, s).error.causes[0] == WeakDigestWarning(SignatureMethod(s))
  {
    if Verified(env, s) && s.manifest.Some? {
      CheckReferencesErrorGeneral(env, s.dataFiles[0], s.manifest.value);
    }
    if !(Verified(env, s) && WeakWarningDue(env, s)) {
      var causes := Causes(env, s);
      if Verified(env, s) {
        assert causes == ReferenceCauses(env, s);
      }
      assert forall k :: 0 <= k < |causes| ==> causes[k].code == General;
    } else {
      assert Validate(env, s).error.causes[0].code == ReferenceDigestWeak;
    }
  }

  /**
   After a successful verification, the first failing manifest reference
   contributes one cause, placed after the weak-digest warning if that was
   due; the warning is kept and no later reference is checked.
   */
  lemma FirstReferenceFailureIsLastCause(env: Collaborators, s: SignatureTST, i: nat)
    requires CanValidate(env, s) && CanDigest(s)
    requires Verified(env, s) && s.manifest.Some?
    requires FirstFailing(env, s.dataFiles[0], s.manifest.value, i)
    ensures Validate(env, s).Fail?
    ensures Validate(env, s).error.causes
            == WeakCauses(env, s) + [CheckReference(env, s.dataFiles[0], s.manifest.value[i]).value]
  {
  }

  /**
   With every digest computable and exactly one reference whose declared
   digest differs, validate() fails and its last cause names that reference's
   file.
   */
  lemma SingleMismatchNamesItsUri(env: Collaborators, s: SignatureTST, i: nat)
    requires CanValidate(env, s) && CanDigest(s)
    requires Verified(env, s) && s.manifest.Some? && i < |s.manifest.value|
    requires forall j :: 0 <= j < |s.manifest.value| ==> ActualDigest(env, s.dataFiles[0], s.manifest.value[j]).Success?
    requires forall j :: 0 <= j < |s.manifest.value| ==> (Matches(env, s.dataFiles[0], s.manifest.value[j]) <==> j != i)
    ensures Validate(env, s).Fail?
    ensures var causes := Validate(env, s).error.causes;
            causes[|causes| - 1] == ReferenceMismatch(env.fromUriPath(s.manifest.value[i].uri))
  {
    FirstReferenceFailureIsLastCause(env, s, i);
  }

  /**
   A freshly created signature validates when the authority issued the token
   honestly (under the requested method, over the requested digest), the token
   verifies against its own imprint and no weak-digest warning is due.
   */
  lemma FreshSignatureValidates(env: Collaborators, dataFiles: seq<DataFile>, defaultMethod: string, userAgent: string,
                                requestToken: (string, Bytes, string) -> Result<TimeStampToken>)
    requires |dataFiles| > 0
    requires var s := Fresh(env, dataFiles, defaultMethod, userAgent, requestToken);
             s.Success? ==>
               && s.value.token.value.digestMethod == defaultMethod
               && s.value.token.value.imprint == env.calcDigest(dataFiles[0], defaultMethod).value
               && env.verify(s.value.token.value, s.value.token.value.imprint).Pass?
               && !WeakWarningDue(env, s.value)
    ensures var s := Fresh(env, dataFiles, defaultMethod, userAgent, requestToken);
            s.Success? ==> Validate(env, s.value) == Pass
  {
    var s := Fresh(env, dataFiles, defaultMethod, userAgent, requestToken);
    if s.Success? {
      FreshDataToSign(env, dataFiles, defaultMethod, userAgent, requestToken);
      assert Causes(env, s.value) == [];
    }
  }
}

=== FILE: types.dfy ===
/**
 Shared vocabulary of the model: bytes, data files, the library's exception
 object (a message, a code and an ordered list of causes) and the two
 failure-carrying result types that replace C++ throws.
 */
module Types {

  type Byte = b: int | 0 <= b < 256

  type Bytes = seq<Byte>

  /** A data file as the container holds it: its name is the key within a container. */
  datatype DataFile = DataFile(fileName: string, mediaType: string, content: Bytes)

  /** The codes the model distinguishes; every other code the library uses is `General` here. */
  datatype ExceptionCode = General | ReferenceDigestWeak

  /** digidoc::Exception: a message, a code and the causes added to it, in insertion order. */
  datatype Exception = Exception(msg: string, code: ExceptionCode, causes: seq<Exception>)

  /** An exception built by THROW or EXCEPTION_PARAMS: general code, no causes yet. */
  function Error(msg: string): Exception
  {
    Exception(msg, General, [])
  }

  /** The value of a call that either returns a `T` or throws. */
  datatype Result<+T> = Success(value: T) | Failure(error: Exception) {
    predicate IsFailure() { Failure? }

    function PropagateFailure<U>(): Result<U>
      requires Failure?
    {
      Failure(error)
    }

    function Extract(): T
      requires Success?
    {
      value
    }
  }

  /** The value of a `void` call that either returns or throws. */
  datatype Outcome = Pass | Fail(error: Exception) {
    predicate IsFailure() { Fail? }

    function PropagateFailure<U>(): Result<U>
      requires Fail?
    {
      Failure(error)
    }
  }

  datatype Option<+T> = None | Some(value: T)
}
